=== FILE: README.md ===
# Legal news analysis: the reply parser

This project models in Dafny how `GeminiService.analyze_article` turns the
language model's free-text reply into a structured analysis record, and proves
properties of that reading.

The reply is cut at blank lines (`"\n\n"`). The first four sections are read in
order as follows:

- the summary, labelled 要約：
- the legal analysis, labelled 法的解説：
- the related statutes block, labelled 関連法令：
- the related cases block, labelled 関連判例：

Every occurrence of a section's label is removed, and surrounding whitespace is
stripped. The statutes block is then read line by line. A non-blank line with
exactly one 第 becomes a citation: the name is the text before 第 with
surrounding whitespace stripped, and the article is 第 followed by the stripped
text after it. The cases block is read the same way with the full-width
colon ：, which separates a case name from its description. Each citation gets a placeholder URL: a fixed prefix followed by
the name. A reply with fewer than four sections raises `IndexError` in the
source. Here that is the `None` result.

Modules:

- `Wrappers`: `Option`.
- `Strings`: Python's `find`, `split`, `join`, `replace` and `strip` on
  `seq<char>`. The whitespace set is the one `str.isspace` accepts, which
  includes the ideographic space U+3000.
- `Sequences`: an order-preserving filter-and-convert. It models the
  `for … if …: append` loops.
- `Citations`: statute and case lines and blocks, and the writing of citations
  back into lines. Reading is proved to undo that writing.
- `GeminiService`: the reply record, the section reading, and `Render`, which
  writes a record in the layout the parser reads: four labelled sections
  separated by blank lines. `ParseRender` proves that reading such a reply
  gives the record back.

## Model

| member | source | states |
|---|---|---|
| Strings.SplitOn | api/gemini_service.py:35 | `split` always gives at least one piece. Joining the pieces with the separator gives the text back. No separator starts inside a piece: the cut is leftmost and non-overlapping. |
| Strings.SplitOfJoin | api/gemini_service.py:35 | Splitting the join of pieces that hold no separator gives those pieces back. |
| Strings.SplitCharCount | api/gemini_service.py:52-53 | Splitting on one character gives one more piece than the character's occurrences. So "exactly two parts" means "exactly one 第". |
| Strings.SplitCharAppend | api/gemini_service.py:49 | Splitting `x + "\n" + y` into lines gives the lines of `x` followed by the lines of `y`. |
| Strings.SplitAroundChar | api/gemini_service.py:52-53 | A text with a single separator splits into exactly the text before it and the text after it. |
| Strings.ReplaceAll | api/gemini_service.py:38 | A text without the pattern is left unchanged. |
| Strings.ReplaceAllIsJoinOfSplit | api/gemini_service.py:38 | `replace` equals the join of the split, so every occurrence of the label is replaced, not only a leading one. |
| Strings.RemoveLeadingLabel | api/gemini_service.py:38 | A label at the head of the text that occurs nowhere else is removed, and the rest is left as it was. |
| Strings.Strip | api/gemini_service.py:38 | The result starts and ends with non-whitespace. It is empty exactly when the input is all whitespace. |
| Strings.StripIsSlice | api/gemini_service.py:38 | The result is a contiguous slice of the input with only whitespace removed on either side. |
| Strings.StripPadded | api/gemini_service.py:54 | Stripping whitespace-padded trimmed text gives the trimmed text. |
| Strings.StripKeeps | api/gemini_service.py:54 | `strip` leaves text that is already trimmed unchanged. |
| Strings.StripIdempotent | api/gemini_service.py:54 | Stripping twice is the same as stripping once. |
| Strings.StripKeepsOut | api/gemini_service.py:54 | `strip` introduces no character. |
| Strings.JoinTrimmedLines | api/gemini_service.py:49 | Trimmed lines joined by newlines give a trimmed text with no blank line. |
| Sequences.FilterMap | api/gemini_service.py:48-61 | The loop keeps at most as many entries as there are lines. |
| Sequences.FilterMapSound | api/gemini_service.py:48-61 | Every kept entry is the conversion of some input line. |
| Sequences.FilterMapComplete | api/gemini_service.py:48-61 | Every accepted line contributes its entry. |
| Sequences.FilterMapAppend | api/gemini_service.py:48-61 | Filtering a concatenation concatenates the results, so the order of appearance is kept. |
| Sequences.FilterMapAllAccepted | api/gemini_service.py:48-61 | When every line is accepted, nothing is dropped and positions line up. |
| Sequences.FilterMapNoneAccepted | api/gemini_service.py:48-61 | When every line is rejected, the list is empty. |
| Citations.ParseLawLine | api/gemini_service.py:50-59 | A line is accepted exactly when it holds one 第. The name then holds no 第 and is trimmed, the article starts with 第, and the URL is the e-Gov prefix followed by the name. |
| Citations.LawLineFields | api/gemini_service.py:52-59 | For a line `before + 第 + after` with no other 第, the name is `strip(before)`, the article is 第 + `strip(after)`, and the URL is the prefix + name. |
| Citations.TrimmedLawLine | api/gemini_service.py:54-59 | A trimmed name, 第 and a trimmed number read back as exactly those parts. |
| Citations.LawExample | api/gemini_service.py:52-59 | 道路交通法第75条 gives name 道路交通法 and article 第75条. |
| Citations.LawRejectExample | api/gemini_service.py:53 | The line 道路交通法第75条第1項, with two 第, is dropped, and so is 道路交通法, with none. |
| Citations.LawLineKeepsOut | api/gemini_service.py:54-55 | A character that is absent from a line with one 第 is absent from the citation read from it. |
| Citations.ParseLaws | api/gemini_service.py:44-61 | There are no more citations than lines. Each citation is well-formed and holds no line break. An empty or all-blank block gives no citations. |
| Citations.BlankTextHasNoLaws | api/gemini_service.py:50 | An all-blank block gives no citations. |
| Citations.ParseLawsOneLine | api/gemini_service.py:49-60 | A one-line block gives that line's citation, or nothing. |
| Citations.BlankLawLineSkipped | api/gemini_service.py:49-50 | A blank line inside a statutes block changes nothing: the block reads as if the line were absent. |
| Citations.ParseLawsAppend | api/gemini_service.py:49-60 | Blocks joined by a line break give their citation lists joined, in order of appearance. |
| Citations.LawLineRoundTrip | api/gemini_service.py:52-59 | Reading the line a well-formed citation is written as gives that citation. |
| Citations.ParseLawsRoundTrip | api/gemini_service.py:44-61 | Writing well-formed citations one per line and reading the block gives the same list. |
| Citations.ParseCaseLine | api/gemini_service.py:69-78 | A line is accepted exactly when it holds one ：. Name and description are trimmed and hold no ：. The URL is the courts prefix followed by the name. |
| Citations.CaseLineFields | api/gemini_service.py:71-78 | For a line `before + ： + after` with no other ：, the name is `strip(before)` and the description is `strip(after)`. |
| Citations.CaseExample | api/gemini_service.py:71-78 | 最高裁判決：運転中のスマホ使用は重過失にあたる gives name 最高裁判決 and that description. |
| Citations.CaseLineKeepsOut | api/gemini_service.py:73-74 | A character that is absent from a line with one ： is absent from the case read from it. |
| Citations.ParseCases | api/gemini_service.py:63-80 | There are no more cases than lines. Each case is well-formed and holds no line break. An empty or all-blank block gives no cases. |
| Citations.BlankTextHasNoCases | api/gemini_service.py:69 | An all-blank block gives no cases. |
| Citations.ParseCasesOneLine | api/gemini_service.py:68-79 | A one-line block gives that line's case, or nothing. |
| Citations.BlankCaseLineSkipped | api/gemini_service.py:68-69 | A blank line inside a cases block changes nothing: the block reads as if the line were absent. |
| Citations.ParseCasesAppend | api/gemini_service.py:68-79 | Blocks joined by a line break give their case lists joined, in order of appearance. |
| Citations.CaseLineRoundTrip | api/gemini_service.py:71-78 | Reading the line a well-formed case is written as gives that case. |
| Citations.ParseCasesRoundTrip | api/gemini_service.py:63-80 | Writing well-formed cases one per line and reading the block gives the same list. |
| GeminiService.Clean | api/gemini_service.py:38-41 | A cleaned section is trimmed. |
| GeminiService.CleanLeadingLabel | api/gemini_service.py:38-41 | A section that starts with its label and holds it nowhere else reads as its stripped rest. |
| GeminiService.LabelCanSurvive | api/gemini_service.py:38 | Removing every 要約： from 要約要約：： leaves 要約：. The label is not guaranteed to be gone. |
| GeminiService.ParseResponse | api/gemini_service.py:35-41 | The result is `None` (the `IndexError`) exactly when the reply has fewer than four blank-line separated sections. Otherwise summary and analysis are trimmed, and every citation and case is well-formed. |
| GeminiService.ParseSections | api/gemini_service.py:35-41 | For sections joined by blank lines, the record is read positionally from the first four sections. |
| GeminiService.FewSectionsFail | api/gemini_service.py:35-41 | Fewer than four sections joined by blank lines fail. |
| GeminiService.NoBlankLineFails | api/gemini_service.py:35-41 | A reply with no blank line fails. |
| GeminiService.ExtraSectionsIgnored | api/gemini_service.py:35-41 | Keeping only the first four sections of a reply gives the same result. |
| GeminiService.PromptLayoutFails | api/gemini_service.py:21-35 | A reply whose items sit on consecutive lines, as the prompt lists them, has no blank line and fails. |
| GeminiService.StrayBlankLinesAreRead | api/gemini_service.py:21-41 | Three trimmed paragraphs separated by blank lines, followed by the items on consecutive lines, are read: the paragraphs give summary, analysis and statutes block, and the whole item block is the cases block. |
| GeminiService.SectionsSplit | api/gemini_service.py:35 | A reply in the layout the parser reads (four labelled sections separated by blank lines) splits back into those sections. |
| GeminiService.LawsSectionRoundTrip | api/gemini_service.py:40 | A labelled statutes section reads back as its citations. |
| GeminiService.CasesSectionRoundTrip | api/gemini_service.py:41 | A labelled cases section reads back as its cases. |
| GeminiService.ParseRender | api/gemini_service.py:35-41 | Writing a record as four labelled, blank-line separated sections and reading it back gives the record. This holds when the fields are trimmed, contain no blank line, contain no label, and hold well-formed citations. |

## Behaviour worth noting

- A citation line with two markers is dropped, not cut at the first one. `split("第")` and `split("：")` have no limit, and the line is kept only when there are exactly two parts (api/gemini_service.py:52-53, 71-72). `Citations.ParseLawLine` and `Citations.ParseCaseLine` accept exactly the lines with one marker.
- `replace` removes every occurrence of the label, not only a leading one (api/gemini_service.py:38-41). `Strings.ReplaceAllIsJoinOfSplit` states this. `GeminiService.LabelCanSurvive` shows that the label can still be present afterwards.
- A reply with fewer than four sections raises `IndexError` at `sections[1]` to `sections[3]`, and no field defaults to empty (api/gemini_service.py:38-41). `GeminiService.ParseResponse` returns `None` exactly then.
- The prompt lists its four items, numbered, on consecutive lines (api/gemini_service.py:21-24). The parser cuts only at blank lines (api/gemini_service.py:35). A reply laid out exactly like the prompt therefore has one section and fails, as `GeminiService.PromptLayoutFails` shows. A "1. " numbering prefix is not removed, because only the label is.
- A reply is read whenever it holds at least three blank lines, wherever they fall. The text between them is assigned by position, so a blank line inside a section silently shifts every later field (`GeminiService.ParseSections`). `GeminiService.StrayBlankLinesAreRead` shows a case: three stray paragraphs in front of the prompt's consecutive items become the summary, the analysis and the statutes block, and all four items land in the cases block.

## Left out

- Vertex AI initialisation, the prompt template and the model call (api/gemini_service.py:6-12, 18-31) are left out: they are a network call. The reply text is a parameter of `ParseResponse`.
- The returned dictionary is modelled as the `Analysis` record, and each law and case dictionary as a `Law` or `Case` record. Key names are not modelled.
- The Firestore wrapper, the FastAPI routes and the browser scripts are not part of this model.
- URLs are only concatenated. Whether they resolve is not modelled: the source marks them as placeholders, and no percent-encoding is applied there either.
- GeminiService.Clean: no member claims that the label is gone after cleaning. `replace` can rebuild the label from pieces around a removed occurrence, as `LabelCanSurvive` shows. The proved positive statement is `CleanLeadingLabel`: a label at the head of the section that occurs nowhere else is removed.
- GeminiService.ParseResponse: the `None` case stands for Python's `IndexError`. The route handler catches every exception and sends `str(e)` ("list index out of range") as the detail of an HTTP 500 (api/main.py:61-62). `None` drops the exception's type and message, and the HTTP response is not modelled.
- Strings.Strip: only the whitespace of `str.isspace` is modelled. There is no Unicode normalisation.

=== FILE: citations.dfy ===
/**
 Statute and case-law citations read from the lines of the model's reply
 (`GeminiService._parse_laws` and `GeminiService._parse_cases`).
 */
module Citations {
  import opened Wrappers
  import opened Strings
  import opened Sequences

  /** One related statute: law name, article reference and a lookup link. */
  datatype Law = Law(name: string, article: string, url: string)

  /** One related judgment: case name, short description and a search link. */
  datatype Case = Case(name: string, summary: string, url: string)

  /** The article marker 第 that separates a law name from its article number. */
  const ArticleMarker: char := '第'

  /** The full-width colon that separates a case name from its description. */
  const CaseSeparator: char := '：'

  /** Placeholder link templates; the name is appended without any escaping. */
  const LawUrlPrefix: string := "https://elaws.e-gov.go.jp/document?lawid="
  const CaseUrlPrefix: string := "https://www.courts.go.jp/app/hanrei_jp/list1?filter=1&keyword="


  // ---------------------------------------------------------------- statutes

  /** A citation of the shape the statute parser produces. */
  predicate WellFormedLaw(l: Law) {
    && ArticleMarker !in l.name && Trimmed(l.name)
    && |l.article| >= 1 && l.article[0] == ArticleMarker
    && ArticleMarker !in l.article[1..] && Trimmed(l.article[1..])
    && l.url == LawUrlPrefix + l.name
  }

  /**
   One line of the statutes block: kept only when it is not blank and
   splitting on 第 gives exactly two parts; the name is the trimmed text
   before 第 and the article is 第 followed by the trimmed text after it.
   */
  function ParseLawLine(line: string): (r: Option<Law>)
    ensures r.Some? <==> Count(line, ArticleMarker) == 1
    ensures r.Some? ==> WellFormedLaw(r.value)
  {
    SplitCharCount(line, ArticleMarker);
    if Strip(line) == [] then
      AllWhitespaceLacks(line, ArticleMarker);
      None
    else
      var parts := SplitOn(line, [ArticleMarker]);
      if |parts| == 2 then
        var name := Strip(parts[0]);
        var after := Strip(parts[1]);
        SplitCharPiecesFree(line, ArticleMarker);
        LawOfParts(parts[0], parts[1]);
        Some(Law(name, [ArticleMarker] + after, LawUrlPrefix + name))
      else
        None
  }

  /** The citation built from the two parts around a sole 第 is well-formed. */
  lemma LawOfParts(before: string, after: string)
    requires ArticleMarker !in before && ArticleMarker !in after
    ensures WellFormedLaw(Law(Strip(before), [ArticleMarker] + Strip(after), LawUrlPrefix + Strip(before)))
  {
    StripKeepsOut(before, ArticleMarker);
    StripKeepsOut(after, ArticleMarker);
    assert ([ArticleMarker] + Strip(after))[1..] == Strip(after);
  }

  /**
   The statutes block: every line of it through `ParseLawLine`, keeping the
   accepted ones in their order of appearance.
   */
  function ParseLaws(text: string): (r: seq<Law>)
    ensures |r| <= |Lines(text)|
    ensures forall k :: 0 <= k < |r| ==> WellFormedLaw(r[k])
    ensures forall k :: 0 <= k < |r| ==> LineBreak !in r[k].name && LineBreak !in r[k].article
    ensures AllWhitespace(text) ==> r == []
  {
    LawsOfLines(text);
    FilterMap(Lines(text), ParseLawLine)
  }

  /** What reading the lines of a block one by one guarantees about the result. */
  lemma LawsOfLines(text: string)
    ensures forall k :: 0 <= k < |FilterMap(Lines(text), ParseLawLine)| ==>
              WellFormedLaw(FilterMap(Lines(text), ParseLawLine)[k])
    ensures forall k :: 0 <= k < |FilterMap(Lines(text), ParseLawLine)| ==>
              LineBreak !in FilterMap(Lines(text), ParseLawLine)[k].name
              && LineBreak !in FilterMap(Lines(text), ParseLawLine)[k].article
    ensures AllWhitespace(text) ==> FilterMap(Lines(text), ParseLawLine) == []
  {
    SplitCharPiecesFree(text, LineBreak);
    LawsKeepLineBreakOut(Lines(text));
    if AllWhitespace(text) {
      AllWhitespacePieces(text);
      FilterMapNoneAccepted(Lines(text), ParseLawLine);
    }
  }

  lemma LawsKeepLineBreakOut(lines: seq<string>)
    requires forall k :: 0 <= k < |lines| ==> LineBreak !in lines[k]
    ensures var r := FilterMap(lines, ParseLawLine);
            forall k :: 0 <= k < |r| ==> WellFormedLaw(r[k]) && LineBreak !in r[k].name && LineBreak !in r[k].article
  {
    var r := FilterMap(lines, ParseLawLine);
    forall k | 0 <= k < |r|
      ensures WellFormedLaw(r[k]) && LineBreak !in r[k].name && LineBreak !in r[k].article
    {
      FilterMapSound(lines, ParseLawLine, k);
      var i :| 0 <= i < |lines| && ParseLawLine(lines[i]) == Some(r[k]);
      LawLineKeepsOut(lines[i], LineBreak);
    }
  }

  /** An all-blank block gives no citations. */
  lemma BlankTextHasNoLaws(text: string)
    requires AllWhitespace(text)
    ensures ParseLaws(text) == []
  {
  }

  /**
   A line with a single 第 reads as the statute named by the trimmed text
   before it, with 第 and the trimmed text after it as the article.
   */
  lemma LawLineFields(before: string, after: string)
    requires ArticleMarker !in before && ArticleMarker !in after
    ensures ParseLawLine(before + [ArticleMarker] + after)
            == Some(Law(Strip(before), [ArticleMarker] + Strip(after), LawUrlPrefix + Strip(before)))
  {
    SplitAroundChar(before, ArticleMarker, after);
  }

  /** Every accepted line is a text, one 第, and a text. */
  lemma SoleCharLine(line: string, c: char) returns (before: string, after: string)
    requires Count(line, c) == 1
    ensures line == before + [c] + after && c !in before && c !in after
  {
    SplitAtSoleChar(line, c);
    var i := IndexOf(line, [c]).value;
    before, after := line[..i], line[i + 1..];
    assert line == before + [c] + after;
  }

  /** A character absent from a line with one 第 is absent from the law read from it. */
  lemma LawLineKeepsOut(line: string, c: char)
    requires c !in line
    requires Count(line, ArticleMarker) == 1
    ensures c !in ParseLawLine(line).value.name && c !in ParseLawLine(line).value.article
  {
    var before, after := SoleCharLine(line, ArticleMarker);
    assert line[|before|] == ArticleMarker;
    LawLineFields(before, after);
    StripKeepsOut(before, c);
    StripKeepsOut(after, c);
  }

  /** Every line of an all-blank text is blank, so no citation is read from it. */
  lemma AllWhitespacePieces(text: string)
    requires AllWhitespace(text)
    ensures forall k :: 0 <= k < |Lines(text)| ==>
              Count(Lines(text)[k], ArticleMarker) == 0
              && Count(Lines(text)[k], CaseSeparator) == 0
  {
    assert ArticleMarker !in text && CaseSeparator !in text by {
      assert forall k :: 0 <= k < |text| ==> IsWhitespace(text[k]);
    }
    SplitLinesKeepOut(text, ArticleMarker);
    SplitLinesKeepOut(text, CaseSeparator);
  }

  /** A character absent from the text is absent from each of its lines. */
  lemma SplitLinesKeepOut(text: string, c: char)
    requires c !in text
    ensures forall k :: 0 <= k < |Lines(text)| ==> c !in Lines(text)[k]
  {
    var lines := Lines(text);
    forall k | 0 <= k < |lines|
      ensures c !in lines[k]
    {
      JoinKeepsPieces(lines, [LineBreak], k);
    }
  }

  /** Each piece sits inside the joined text, so its characters are characters of the text. */
  lemma {:induction false} JoinKeepsPieces(pieces: seq<string>, sep: string, k: nat)
    requires k < |pieces|
    ensures forall c :: c in pieces[k] ==> c in Join(pieces, sep)
    decreases |pieces|
  {
    if |pieces| > 1 {
      if k > 0 {
        JoinKeepsPieces(pieces[1..], sep, k - 1);
      }
    }
  }

  /** The line a well-formed citation would be written as: name then article. */
  function RenderLaw(l: Law): string {
    l.name + l.article
  }

  function LawLines(ls: seq<Law>): (lines: seq<string>)
    ensures |lines| == |ls| && forall i :: 0 <= i < |ls| ==> lines[i] == RenderLaw(ls[i])
  {
    seq(|ls|, i requires 0 <= i < |ls| => RenderLaw(ls[i]))
  }

  /** The statutes block a list of citations would be written as, one per line. */
  function RenderLaws(ls: seq<Law>): string {
    Join(LawLines(ls), [LineBreak])
  }

  /** Reading back the line of a well-formed citation gives that citation. */
  lemma LawLineRoundTrip(l: Law)
    requires WellFormedLaw(l)
    ensures ParseLawLine(RenderLaw(l)) == Some(l)
  {
    var line := RenderLaw(l);
    var rest := l.article[1..];
    assert l.article == [ArticleMarker] + rest;
    assert line == l.name + [ArticleMarker] + rest;
    SplitAroundChar(l.name, ArticleMarker, rest);
    StripKeeps(l.name);
    StripKeeps(rest);
    assert [ArticleMarker] + rest == l.article;
  }

  /** A text without a line break is a single line. */
  lemma SingleLine(line: string)
    requires LineBreak !in line
    ensures Lines(line) == [line]
  {
    SeparableChar([line], LineBreak);
    SplitOfJoin([line], [LineBreak]);
  }

  /** Lines that hold no line break are exactly what splitting their join gives back. */
  lemma SplitJoinedLines(lines: seq<string>)
    requires |lines| >= 1
    requires forall k :: 0 <= k < |lines| ==> LineBreak !in lines[k]
    ensures Lines(Join(lines, [LineBreak])) == lines
  {
    SeparableChar(lines, LineBreak);
    SplitOfJoin(lines, [LineBreak]);
  }

  /** The statutes of a one-line block are the citation of that line, if it is accepted. */
  lemma ParseLawsOneLine(line: string)
    requires LineBreak !in line
    ensures ParseLaws(line) == match ParseLawLine(line) case Some(l) => [l] case None => []
  {
    SingleLine(line);
    assert [line][1..] == [];
  }

  /** Joining two blocks with a line break joins their statute lists: the order of appearance is kept. */
  lemma ParseLawsAppend(x: string, y: string)
    ensures ParseLaws(x + [LineBreak] + y) == ParseLaws(x) + ParseLaws(y)
  {
    SplitCharAppend(x, y, LineBreak);
    FilterMapAppend(Lines(x), Lines(y), ParseLawLine);
  }

  /** A blank line between two parts of a block is skipped: the citations around it are unchanged. */
  lemma BlankLawLineSkipped(x: string, w: string, y: string)
    requires AllWhitespace(w)
    ensures ParseLaws(x + [LineBreak] + w + [LineBreak] + y) == ParseLaws(x + [LineBreak] + y)
  {
    var tail := w + [LineBreak] + y;
    assert x + [LineBreak] + w + [LineBreak] + y == x + [LineBreak] + tail;
    calc {
      ParseLaws(x + [LineBreak] + tail);
      { ParseLawsAppend(x, tail); }
      ParseLaws(x) + ParseLaws(tail);
      { BlankLawHeadSkipped(w, y); }
      ParseLaws(x) + ParseLaws(y);
      { ParseLawsAppend(x, y); }
      ParseLaws(x + [LineBreak] + y);
    }
  }

  /** A blank first line is skipped. */
  lemma BlankLawHeadSkipped(w: string, y: string)
    requires AllWhitespace(w)
    ensures ParseLaws(w + [LineBreak] + y) == ParseLaws(y)
  {
    ParseLawsAppend(w, y);
    BlankTextHasNoLaws(w);
    assert [] + ParseLaws(y) == ParseLaws(y);
  }

  /** Writing well-formed citations one per line and reading the block back gives the same list. */
  lemma ParseLawsRoundTrip(ls: seq<Law>)
    requires forall k :: 0 <= k < |ls| ==> WellFormedLaw(ls[k])
    requires forall k :: 0 <= k < |ls| ==> LineBreak !in ls[k].name && LineBreak !in ls[k].article
    ensures ParseLaws(RenderLaws(ls)) == ls
  {
    if ls != [] {
      SplitJoinedLines(LawLines(ls));
      LawLinesAccepted(ls);
    }
  }

  lemma LawLinesAccepted(ls: seq<Law>)
    requires forall k :: 0 <= k < |ls| ==> WellFormedLaw(ls[k])
    ensures FilterMap(LawLines(ls), ParseLawLine) == ls
  {
    var lines := LawLines(ls);
    forall i | 0 <= i < |lines|
      ensures ParseLawLine(lines[i]) == Some(ls[i])
    {
      LawLineRoundTrip(ls[i]);
    }
    FilterMapAllAccepted(lines, ParseLawLine);
  }

  /** A line made of a trimmed name, 第 and a trimmed article number reads as exactly those parts. */
  lemma TrimmedLawLine(name: string, number: string)
    requires ArticleMarker !in name && ArticleMarker !in number && Trimmed(name) && Trimmed(number)
    ensures ParseLawLine(name + [ArticleMarker] + number)
            == Some(Law(name, [ArticleMarker] + number, LawUrlPrefix + name))
  {
    LawLineFields(name, number);
    StripKeeps(name);
    StripKeeps(number);
  }

  /**
   The line 道路交通法第75条 reads as the statute 道路交通法, article 第75条.
   The literals are bound to parameters: applied to a literal, the parser unfolds far enough to exhaust the solver.
   */
  lemma LawExample(name: string, number: string)
    requires name == "道路交通法" && number == "75条"
    ensures ParseLawLine(name + [ArticleMarker] + number)
            == Some(Law(name, [ArticleMarker] + number, LawUrlPrefix + name))
  {
    assert ArticleMarker !in name && ArticleMarker !in number && Trimmed(name) && Trimmed(number);
    TrimmedLawLine(name, number);
  }

  /**
   道路交通法第75条第1項 has two article markers and is dropped; 道路交通法 has none and is dropped too.
   The literals are bound to parameters: applied to a literal, the parser unfolds far enough to exhaust the solver.
   */
  lemma LawRejectExample(name: string, number: string, paragraph: string)
    requires name == "道路交通法" && number == "75条" && paragraph == "1項"
    ensures ParseLawLine(name + [ArticleMarker] + number + [ArticleMarker] + paragraph) == None
    ensures ParseLawLine(name) == None
  {
    var line := name + [ArticleMarker] + number + [ArticleMarker] + paragraph;
    assert multiset(line)[ArticleMarker] == 2 by {
      assert multiset(line) == multiset(name) + multiset{ArticleMarker} + multiset(number)
                               + multiset{ArticleMarker} + multiset(paragraph);
      assert ArticleMarker !in name && ArticleMarker !in number && ArticleMarker !in paragraph;
    }
    assert ArticleMarker !in name;
  }

  // ------------------------------------------------------------------ cases

  /** A citation of the shape the case parser produces. */
  predicate WellFormedCase(c: Case) {
    && CaseSeparator !in c.name && Trimmed(c.name)
    && CaseSeparator !in c.summary && Trimmed(c.summary)
    && c.url == CaseUrlPrefix + c.name
  }

  /**
   One line of the cases block: kept only when it is not blank and
   splitting on the full-width colon gives exactly two parts, the trimmed
   name and the trimmed description.
   */
  function ParseCaseLine(line: string): (r: Option<Case>)
    ensures r.Some? <==> Count(line, CaseSeparator) == 1
    ensures r.Some? ==> WellFormedCase(r.value)
  {
    SplitCharCount(line, CaseSeparator);
    if Strip(line) == [] then
      AllWhitespaceLacks(line, CaseSeparator);
      None
    else
      var parts := SplitOn(line, [CaseSeparator]);
      if |parts| == 2 then
        var name := Strip(parts[0]);
        SplitCharPiecesFree(line, CaseSeparator);
        CaseOfParts(parts[0], parts[1]);
        Some(Case(name, Strip(parts[1]), CaseUrlPrefix + name))
      else
        None
  }

  /** The case built from the two parts around a sole ： is well-formed. */
  lemma CaseOfParts(before: string, after: string)
    requires CaseSeparator !in before && CaseSeparator !in after
    ensures WellFormedCase(Case(Strip(before), Strip(after), CaseUrlPrefix + Strip(before)))
  {
    StripKeepsOut(before, CaseSeparator);
    StripKeepsOut(after, CaseSeparator);
  }

  /**
   The cases block: every line of it through `ParseCaseLine`, keeping the
   accepted ones in their order of appearance.
   */
  function ParseCases(text: string): (r: seq<Case>)
    ensures |r| <= |Lines(text)|
    ensures forall k :: 0 <= k < |r| ==> WellFormedCase(r[k])
    ensures forall k :: 0 <= k < |r| ==> LineBreak !in r[k].name && LineBreak !in r[k].summary
    ensures AllWhitespace(text) ==> r == []
  {
    CasesOfLines(text);
    FilterMap(Lines(text), ParseCaseLine)
  }

  /** What reading the lines of a block one by one guarantees about the result. */
  lemma CasesOfLines(text: string)
    ensures forall k :: 0 <= k < |FilterMap(Lines(text), ParseCaseLine)| ==>
              WellFormedCase(FilterMap(Lines(text), ParseCaseLine)[k])
    ensures forall k :: 0 <= k < |FilterMap(Lines(text), ParseCaseLine)| ==>
              LineBreak !in FilterMap(Lines(text), ParseCaseLine)[k].name
              && LineBreak !in FilterMap(Lines(text), ParseCaseLine)[k].summary
    ensures AllWhitespace(text) ==> FilterMap(Lines(text), ParseCaseLine) == []
  {
    SplitCharPiecesFree(text, LineBreak);
    CasesKeepLineBreakOut(Lines(text));
    if AllWhitespace(text) {
      AllWhitespacePieces(text);
      FilterMapNoneAccepted(Lines(text), ParseCaseLine);
    }
  }

  lemma CasesKeepLineBreakOut(lines: seq<string>)
    requires forall k :: 0 <= k < |lines| ==> LineBreak !in lines[k]
    ensures var r := FilterMap(lines, ParseCaseLine);
            forall k :: 0 <= k < |r| ==> WellFormedCase(r[k]) && LineBreak !in r[k].name && LineBreak !in r[k].summary
  {
    var r := FilterMap(lines, ParseCaseLine);
    forall k | 0 <= k < |r|
      ensures WellFormedCase(r[k]) && LineBreak !in r[k].name && LineBreak !in r[k].summary
    {
      FilterMapSound(lines, ParseCaseLine, k);
      var i :| 0 <= i < |lines| && ParseCaseLine(lines[i]) == Some(r[k]);
      CaseLineKeepsOut(lines[i], LineBreak);
    }
  }

  /** An all-blank block gives no cases. */
  lemma BlankTextHasNoCases(text: string)
    requires AllWhitespace(text)
    ensures ParseCases(text) == []
  {
  }

  /**
   A line with a single full-width colon reads as the case named by the
   trimmed text before it, described by the trimmed text after it.
   */
  lemma CaseLineFields(before: string, after: string)
    requires CaseSeparator !in before && CaseSeparator !in after
    ensures ParseCaseLine(before + [CaseSeparator] + after)
            == Some(Case(Strip(before), Strip(after), CaseUrlPrefix + Strip(before)))
  {
    SplitAroundChar(before, CaseSeparator, after);
  }

  /** A character absent from a line with one ： is absent from the case read from it. */
  lemma CaseLineKeepsOut(line: string, c: char)
    requires c !in line
    requires Count(line, CaseSeparator) == 1
    ensures c !in ParseCaseLine(line).value.name && c !in ParseCaseLine(line).value.summary
  {
    var before, after := SoleCharLine(line, CaseSeparator);
    CaseLineFields(before, after);
    StripKeepsOut(before, c);
    StripKeepsOut(after, c);
  }

  /** The line a well-formed case citation would be written as: name, colon, description. */
  function RenderCase(c: Case): string {
    c.name + [CaseSeparator] + c.summary
  }

  function CaseLines(cs: seq<Case>): (lines: seq<string>)
    ensures |lines| == |cs| && forall i :: 0 <= i < |cs| ==> lines[i] == RenderCase(cs[i])
  {
    seq(|cs|, i requires 0 <= i < |cs| => RenderCase(cs[i]))
  }

  /** The cases block a list of case citations would be written as, one per line. */
  function RenderCases(cs: seq<Case>): string {
    Join(CaseLines(cs), [LineBreak])
  }

  /** Reading back the line of a well-formed case citation gives that citation. */
  lemma CaseLineRoundTrip(c: Case)
    requires WellFormedCase(c)
    ensures ParseCaseLine(RenderCase(c)) == Some(c)
  {
    SplitAroundChar(c.name, CaseSeparator, c.summary);
    StripKeeps(c.name);
    StripKeeps(c.summary);
  }

  /** The cases of a one-line block are the citation of that line, if it is accepted. */
  lemma ParseCasesOneLine(line: string)
    requires LineBreak !in line
    ensures ParseCases(line) == match ParseCaseLine(line) case Some(c) => [c] case None => []
  {
    SingleLine(line);
    assert [line][1..] == [];
  }

  /** Joining two blocks with a line break joins their case lists: the order of appearance is kept. */
  lemma ParseCasesAppend(x: string, y: string)
    ensures ParseCases(x + [LineBreak] + y) == ParseCases(x) + ParseCases(y)
  {
    SplitCharAppend(x, y, LineBreak);
    FilterMapAppend(Lines(x), Lines(y), ParseCaseLine);
  }

  /** A blank line between two parts of a block is skipped: the cases around it are unchanged. */
  lemma BlankCaseLineSkipped(x: string, w: string, y: string)
    requires AllWhitespace(w)
    ensures ParseCases(x + [LineBreak] + w + [LineBreak] + y) == ParseCases(x + [LineBreak] + y)
  {
    var tail := w + [LineBreak] + y;
    assert x + [LineBreak] + w + [LineBreak] + y == x + [LineBreak] + tail;
    calc {
      ParseCases(x + [LineBreak] + tail);
      { ParseCasesAppend(x, tail); }
      ParseCases(x) + ParseCases(tail);
      { BlankCaseHeadSkipped(w, y); }
      ParseCases(x) + ParseCases(y);
      { ParseCasesAppend(x, y); }
      ParseCases(x + [LineBreak] + y);
    }
  }

  /** A blank first line is skipped. */
  lemma BlankCaseHeadSkipped(w: string, y: string)
    requires AllWhitespace(w)
    ensures ParseCases(w + [LineBreak] + y) == ParseCases(y)
  {
    ParseCasesAppend(w, y);
    BlankTextHasNoCases(w);
    assert [] + ParseCases(y) == ParseCases(y);
  }

  /** Writing well-formed case citations one per line and reading the block back gives the same list. */
  lemma ParseCasesRoundTrip(cs: seq<Case>)
    requires forall k :: 0 <= k < |cs| ==> WellFormedCase(cs[k])
    requires forall k :: 0 <= k < |cs| ==> LineBreak !in cs[k].name && LineBreak !in cs[k].summary
    ensures ParseCases(RenderCases(cs)) == cs
  {
    if cs != [] {
      SplitJoinedLines(CaseLines(cs));
      CaseLinesAccepted(cs);
    }
  }

  lemma CaseLinesAccepted(cs: seq<Case>)
    requires forall k :: 0 <= k < |cs| ==> WellFormedCase(cs[k])
    ensures FilterMap(CaseLines(cs), ParseCaseLine) == cs
  {
    var lines := CaseLines(cs);
    forall i | 0 <= i < |lines|
      ensures ParseCaseLine(lines[i]) == Some(cs[i])
    {
      CaseLineRoundTrip(cs[i]);
    }
    FilterMapAllAccepted(lines, ParseCaseLine);
  }

  /**
   The line 最高裁判決：運転中のスマホ使用は重過失にあたる reads as one case with that name and description.
   The literals are bound to parameters: applied to a literal, the parser unfolds far enough to exhaust the solver.
   */
  lemma CaseExample(name: string, text: string)
    requires name == "最高裁判決" && text == "運転中のスマホ使用は重過失にあたる"
    ensures ParseCaseLine(name + [CaseSeparator] + text) == Some(Case(name, text, CaseUrlPrefix + name))
  {
    var c := Case(name, text, CaseUrlPrefix + name);
    assert CaseSeparator !in name && Trimmed(name);
    assert CaseSeparator !in text && Trimmed(text);
    CaseLineRoundTrip(c);
  }
}

=== FILE: gemini_service.dfy ===
/**
 The structured reading of the model's reply in `GeminiService.analyze_article`:
 the reply is cut at blank lines, the first four sections are read in order as
 summary, legal analysis, statutes block and cases block, each loses its label
 and surrounding whitespace, and the last two are parsed into citations.
 */
module GeminiService {
  import opened Wrappers
  import opened Strings
  import opened Citations

  /** The record `analyze_article` returns. */
  datatype Analysis = Analysis(
    summary: string,
    analysis: string,
    relatedLaws: seq<Law>,
    relatedCases: seq<Case>)

  const SummaryLabel: string := "要約："
  const AnalysisLabel: string := "法的解説："
  const LawsLabel: string := "関連法令："
  const CasesLabel: string := "関連判例："

  /** `section.replace(lbl, "").strip()`: every occurrence of the label goes, then the whitespace around. */
  function Clean(section: string, lbl: string): (r: string)
    requires |lbl| > 0
    ensures Trimmed(r)
  {
    Strip(ReplaceAll(section, lbl, ""))
  }

  /**
   The reply read as a record, or `None` where the source raises `IndexError`
   because the reply has fewer than four blank-line separated sections.
   Sections after the fourth are ignored.
   */
  function ParseResponse(raw: string): (r: Option<Analysis>)
    ensures r.None? <==> |SplitOn(raw, BlankLine)| < 4
    ensures r.Some? ==> Trimmed(r.value.summary) && Trimmed(r.value.analysis)
    ensures r.Some? ==> forall k :: 0 <= k < |r.value.relatedLaws| ==> WellFormedLaw(r.value.relatedLaws[k])
    ensures r.Some? ==> forall k :: 0 <= k < |r.value.relatedCases| ==> WellFormedCase(r.value.relatedCases[k])
  {
    var sections := SplitOn(raw, BlankLine);
    if |sections| < 4 then None
    else Some(Analysis(
      Clean(sections[0], SummaryLabel),
      Clean(sections[1], AnalysisLabel),
      ParseLaws(Clean(sections[2], LawsLabel)),
      ParseCases(Clean(sections[3], CasesLabel))))
  }

  // ------------------------------------------------------------ sections

  /** Sections that join into the reply are read positionally, the first four in order. */
  lemma ParseSections(pieces: seq<string>)
    requires Separable(pieces, BlankLine) && |pieces| >= 4
    ensures ParseResponse(Join(pieces, BlankLine)) == Some(Analysis(
      Clean(pieces[0], SummaryLabel),
      Clean(pieces[1], AnalysisLabel),
      ParseLaws(Clean(pieces[2], LawsLabel)),
      ParseCases(Clean(pieces[3], CasesLabel))))
  {
    SplitOfJoin(pieces, BlankLine);
  }

  /** A reply made of fewer than four sections is the `IndexError` case. */
  lemma FewSectionsFail(pieces: seq<string>)
    requires Separable(pieces, BlankLine) && |pieces| < 4
    ensures ParseResponse(Join(pieces, BlankLine)) == None
  {
    SplitOfJoin(pieces, BlankLine);
  }

  /** A reply without any blank line has one section and fails. */
  lemma NoBlankLineFails(raw: string)
    requires NoBlankLine(raw)
    ensures ParseResponse(raw) == None
  {
    NoBlankLineContains(raw);
    SplitOfJoin([raw], BlankLine);
  }

  /**
   A reply whose items sit on consecutive lines, as the prompt lists them,
   has no blank line and therefore fails.
   */
  lemma PromptLayoutFails(items: seq<string>)
    requires |items| >= 1
    requires forall k :: 0 <= k < |items| ==> TrimmedLine(items[k])
    ensures ParseResponse(Join(items, [LineBreak])) == None
  {
    JoinTrimmedLines(items);
    NoBlankLineFails(Join(items, [LineBreak]));
  }

  /**
   Blank lines are counted wherever they fall. Three stray paragraphs in
   front of the prompt's consecutive items are taken as the summary, the
   analysis and the statutes block, and all four items together become
   the cases block.
   */
  lemma StrayBlankLinesAreRead(p0: string, p1: string, p2: string, items: seq<string>)
    requires TrimmedLine(p0) && TrimmedLine(p1) && TrimmedLine(p2)
    requires |items| >= 1
    requires forall k :: 0 <= k < |items| ==> TrimmedLine(items[k])
    ensures ParseResponse(Join([p0, p1, p2, Join(items, [LineBreak])], BlankLine))
            == Some(Analysis(
                 Clean(p0, SummaryLabel),
                 Clean(p1, AnalysisLabel),
                 ParseLaws(Clean(p2, LawsLabel)),
                 ParseCases(Clean(Join(items, [LineBreak]), CasesLabel))))
  {
    LineSeparable(p0);
    LineSeparable(p1);
    LineSeparable(p2);
    BlockSeparable(items);
    FourSeparable(p0, p1, p2, Join(items, [LineBreak]));
  }

  /** Four sections, the first three each able to stand before a separator, the last free of it, read in order. */
  lemma FourSeparable(a: string, b: string, c: string, d: string)
    requires NoEarlySep(a, BlankLine) && NoEarlySep(b, BlankLine) && NoEarlySep(c, BlankLine)
    requires !Contains(d, BlankLine)
    ensures ParseResponse(Join([a, b, c, d], BlankLine)) == Some(Analysis(
      Clean(a, SummaryLabel),
      Clean(b, AnalysisLabel),
      ParseLaws(Clean(c, LawsLabel)),
      ParseCases(Clean(d, CasesLabel))))
  {
    var pieces := [a, b, c, d];
    forall k | 0 <= k < 3
      ensures NoEarlySep(pieces[k], BlankLine)
    {
      if k == 0 {
        assert pieces[k] == a;
      } else if k == 1 {
        assert pieces[k] == b;
      } else {
        assert pieces[k] == c;
      }
    }
    ParseSections(pieces);
  }

  /** Trimmed lines on consecutive lines hold no blank-line separator. */
  lemma BlockSeparable(items: seq<string>)
    requires |items| >= 1
    requires forall k :: 0 <= k < |items| ==> TrimmedLine(items[k])
    ensures !Contains(Join(items, [LineBreak]), BlankLine)
  {
    JoinTrimmedLines(items);
    SectionSeparable(Join(items, [LineBreak]));
  }

  /** A single trimmed line can stand before a separator. */
  lemma LineSeparable(l: string)
    requires TrimmedLine(l)
    ensures NoEarlySep(l, BlankLine)
  {
    JoinTrimmedLines([l]);
    assert Join([l], [LineBreak]) == l;
    SectionSeparable(l);
  }

  /** Whatever follows the fourth section does not change the result. */
  lemma ExtraSectionsIgnored(raw: string)
    requires |SplitOn(raw, BlankLine)| >= 4
    ensures ParseResponse(Join(SplitOn(raw, BlankLine)[..4], BlankLine)) == ParseResponse(raw)
  {
    var pieces := SplitOn(raw, BlankLine);
    SeparablePrefix(pieces, BlankLine, 4);
    ParseSections(pieces[..4]);
    ParseSections(pieces);
  }

  // ------------------------------------------------------------ labels

  /** A section that starts with its label and holds it nowhere else reads as the stripped rest. */
  lemma CleanLeadingLabel(lbl: string, body: string)
    requires |lbl| > 0 && !Contains(body, lbl)
    ensures Clean(lbl + body, lbl) == Strip(body)
  {
    RemoveLeadingLabel(lbl, body);
  }

  /**
   Removing every occurrence does not guarantee the label is gone: in
   要約要約：： the one occurrence sits in the middle, and closing the gap
   it leaves spells the label again. The literals are bound to parameters:
   applied to a literal, `Clean` unfolds far enough to exhaust the solver.
   */
  lemma LabelCanSurvive(section: string, lbl: string)
    requires lbl == "要約：" && section == "要約要約：："
    ensures Clean(section, lbl) == lbl
  {
    assert OccursAt(section, lbl, 2);
    forall j | 0 <= j < 2
      ensures !OccursAt(section, lbl, j)
    {
      assert section[j + 2] != lbl[2];
    }
    IndexOfIs(section, lbl, 2);
    var tail := section[5..];
    assert !Contains(tail, lbl) by {
      forall i | 0 <= i <= |tail|
        ensures !OccursAt(tail, lbl, i)
      {
      }
    }
    assert ReplaceAll(section, lbl, "") == section[..2] + tail;
    assert section[..2] + tail == lbl;
    StripKeeps(lbl);
  }

  // ------------------------------------------------------------ rendering

  /**
   The layout the parser reads: four labelled sections separated by blank
   lines. The prompt itself lists its four items on consecutive lines, a
   layout `PromptLayoutFails` shows the parser rejects.
   */
  function Sections(a: Analysis): seq<string> {
    [ SummaryLabel + a.summary,
      AnalysisLabel + a.analysis,
      LawsLabel + RenderLaws(a.relatedLaws),
      CasesLabel + RenderCases(a.relatedCases) ]
  }

  /** A reply in the layout the parser reads, carrying the record's fields. */
  function Render(a: Analysis): string {
    Join(Sections(a), BlankLine)
  }

  /** A section body that reads back as itself after its label is written in front of it. */
  predicate CleanBody(body: string, lbl: string) {
    Trimmed(body) && NoBlankLine(body) && !Contains(body, lbl)
  }

  /** The records that survive being written out and read back. */
  predicate Renderable(a: Analysis) {
    && CleanBody(a.summary, SummaryLabel)
    && CleanBody(a.analysis, AnalysisLabel)
    && (forall k :: 0 <= k < |a.relatedLaws| ==> WellFormedLaw(a.relatedLaws[k]))
    && (forall k :: 0 <= k < |a.relatedLaws| ==>
          LineBreak !in a.relatedLaws[k].name && LineBreak !in a.relatedLaws[k].article)
    && !Contains(RenderLaws(a.relatedLaws), LawsLabel)
    && (forall k :: 0 <= k < |a.relatedCases| ==> WellFormedCase(a.relatedCases[k]))
    && (forall k :: 0 <= k < |a.relatedCases| ==>
          LineBreak !in a.relatedCases[k].name && LineBreak !in a.relatedCases[k].summary)
    && !Contains(RenderCases(a.relatedCases), CasesLabel)
  }

  /** A labelled section with a clean body neither holds nor ends in a blank-line separator. */
  lemma LabelledSectionSeparable(lbl: string, body: string)
    requires lbl != [] && LineBreak !in lbl
    requires Trimmed(body) && NoBlankLine(body)
    ensures NoEarlySep(lbl + body, BlankLine)
    ensures !Contains(lbl + body, BlankLine)
  {
    var p := lbl + body;
    forall k | 0 <= k < |p| - 1
      ensures !(p[k] == LineBreak && p[k + 1] == LineBreak)
    {
      if k < |lbl| {
        assert p[k] == lbl[k];
      } else {
        assert p[k] == body[k - |lbl|] && p[k + 1] == body[k - |lbl| + 1];
      }
    }
    assert p[|p| - 1] != LineBreak by {
      if body == [] {
        assert p[|p| - 1] == lbl[|lbl| - 1];
      } else {
        assert p[|p| - 1] == body[|body| - 1];
      }
    }
    SectionSeparable(p);
  }

  /** A section with no blank line that does not end in a newline can stand before a separator. */
  lemma SectionSeparable(p: string)
    requires NoBlankLine(p) && (p == [] || p[|p| - 1] != LineBreak)
    ensures NoEarlySep(p, BlankLine)
    ensures !Contains(p, BlankLine)
  {
    NoBlankLineContains(p);
    var q := p + BlankLine;
    forall j | 0 <= j < |p|
      ensures !OccursAt(q, BlankLine, j)
    {
      assert q[j] == p[j];
      if j < |p| - 1 {
        assert q[j + 1] == p[j + 1];
      }
      PairAt(q, j);
    }
  }

  /** An occurrence of the blank-line separator is two consecutive newlines. */
  lemma PairAt(s: string, j: int)
    requires 0 <= j < |s| - 1
    ensures OccursAt(s, BlankLine, j) <==> s[j] == LineBreak && s[j + 1] == LineBreak
  {
    assert |BlankLine| == 2;
    if OccursAt(s, BlankLine, j) {
      assert s[j] == s[j..j + 2][0] && s[j + 1] == s[j..j + 2][1];
    }
    if s[j] == LineBreak && s[j + 1] == LineBreak {
      assert s[j..j + 2] == BlankLine;
    }
  }

  /** A well-formed citation's line is a trimmed line. */
  lemma LawLineTrimmed(l: Law)
    requires WellFormedLaw(l) && LineBreak !in l.name && LineBreak !in l.article
    ensures TrimmedLine(RenderLaw(l))
  {
    var line := RenderLaw(l);
    assert line[|line| - 1] == l.article[|l.article| - 1];
    assert l.name == [] ==> line[0] == ArticleMarker;
    assert l.name != [] ==> line[0] == l.name[0];
    var rest := l.article[1..];
    assert rest != [] ==> l.article[|l.article| - 1] == rest[|rest| - 1];
  }

  lemma CaseLineTrimmed(c: Case)
    requires WellFormedCase(c) && LineBreak !in c.name && LineBreak !in c.summary
    ensures TrimmedLine(RenderCase(c))
  {
    var line := RenderCase(c);
    assert c.name == [] ==> line[0] == CaseSeparator;
    assert c.name != [] ==> line[0] == c.name[0];
    assert c.summary == [] ==> line[|line| - 1] == CaseSeparator;
    assert c.summary != [] ==> line[|line| - 1] == c.summary[|c.summary| - 1];
  }

  /** The statutes block of well-formed citations is trimmed and has no blank line. */
  lemma RenderLawsClean(ls: seq<Law>)
    requires forall k :: 0 <= k < |ls| ==> WellFormedLaw(ls[k])
    requires forall k :: 0 <= k < |ls| ==> LineBreak !in ls[k].name && LineBreak !in ls[k].article
    ensures Trimmed(RenderLaws(ls)) && NoBlankLine(RenderLaws(ls))
  {
    if ls != [] {
      var lines := LawLines(ls);
      forall k | 0 <= k < |lines|
        ensures TrimmedLine(lines[k])
      {
        LawLineTrimmed(ls[k]);
      }
      JoinTrimmedLines(lines);
    }
  }

  lemma RenderCasesClean(cs: seq<Case>)
    requires forall k :: 0 <= k < |cs| ==> WellFormedCase(cs[k])
    requires forall k :: 0 <= k < |cs| ==> LineBreak !in cs[k].name && LineBreak !in cs[k].summary
    ensures Trimmed(RenderCases(cs)) && NoBlankLine(RenderCases(cs))
  {
    if cs != [] {
      var lines := CaseLines(cs);
      forall k | 0 <= k < |lines|
        ensures TrimmedLine(lines[k])
      {
        CaseLineTrimmed(cs[k]);
      }
      JoinTrimmedLines(lines);
    }
  }

  /** The rendered reply of a renderable record splits back into its four sections. */
  lemma SectionsSplit(a: Analysis)
    requires Renderable(a)
    ensures SplitOn(Render(a), BlankLine) == Sections(a)
  {
    RenderLawsClean(a.relatedLaws);
    RenderCasesClean(a.relatedCases);
    var s := Sections(a);
    LabelledSectionSeparable(SummaryLabel, a.summary);
    LabelledSectionSeparable(AnalysisLabel, a.analysis);
    LabelledSectionSeparable(LawsLabel, RenderLaws(a.relatedLaws));
    LabelledSectionSeparable(CasesLabel, RenderCases(a.relatedCases));
    assert Separable(s, BlankLine);
    SplitOfJoin(s, BlankLine);
  }

  /** A clean body behind its label reads back as itself. */
  lemma CleanBodyKept(lbl: string, body: string)
    requires |lbl| > 0 && CleanBody(body, lbl)
    ensures Clean(lbl + body, lbl) == body
  {
    CleanLeadingLabel(lbl, body);
    StripKeeps(body);
  }

  /** A statutes section whose block holds no label reads back as its citations. */
  lemma LawsSectionRoundTrip(lbl: string, ls: seq<Law>)
    requires |lbl| > 0 && !Contains(RenderLaws(ls), lbl)
    requires forall k :: 0 <= k < |ls| ==> WellFormedLaw(ls[k])
    requires forall k :: 0 <= k < |ls| ==> LineBreak !in ls[k].name && LineBreak !in ls[k].article
    ensures ParseLaws(Clean(lbl + RenderLaws(ls), lbl)) == ls
  {
    LawsBlockKept(lbl, ls);
    ParseLawsRoundTrip(ls);
  }

  /** A trimmed statutes block behind a label it does not contain is what cleaning leaves. */
  lemma LawsBlockKept(lbl: string, ls: seq<Law>)
    requires |lbl| > 0 && !Contains(RenderLaws(ls), lbl)
    requires forall k :: 0 <= k < |ls| ==> WellFormedLaw(ls[k])
    requires forall k :: 0 <= k < |ls| ==> LineBreak !in ls[k].name && LineBreak !in ls[k].article
    ensures Clean(lbl + RenderLaws(ls), lbl) == RenderLaws(ls)
  {
    RenderLawsClean(ls);
    CleanBodyKept(lbl, RenderLaws(ls));
  }

  /** A cases section whose block holds no label reads back as its case citations. */
  lemma CasesSectionRoundTrip(lbl: string, cs: seq<Case>)
    requires |lbl| > 0 && !Contains(RenderCases(cs), lbl)
    requires forall k :: 0 <= k < |cs| ==> WellFormedCase(cs[k])
    requires forall k :: 0 <= k < |cs| ==> LineBreak !in cs[k].name && LineBreak !in cs[k].summary
    ensures ParseCases(Clean(lbl + RenderCases(cs), lbl)) == cs
  {
    CasesBlockKept(lbl, cs);
    ParseCasesRoundTrip(cs);
  }

  /** A trimmed cases block behind a label it does not contain is what cleaning leaves. */
  lemma CasesBlockKept(lbl: string, cs: seq<Case>)
    requires |lbl| > 0 && !Contains(RenderCases(cs), lbl)
    requires forall k :: 0 <= k < |cs| ==> WellFormedCase(cs[k])
    requires forall k :: 0 <= k < |cs| ==> LineBreak !in cs[k].name && LineBreak !in cs[k].summary
    ensures Clean(lbl + RenderCases(cs), lbl) == RenderCases(cs)
  {
    RenderCasesClean(cs);
    CleanBodyKept(lbl, RenderCases(cs));
  }

  /** Reading back a renderable record written in the layout the parser reads gives the record. */
  lemma ParseRender(a: Analysis)
    requires Renderable(a)
    ensures ParseResponse(Render(a)) == Some(a)
  {
    SectionsSplit(a);
    ParseSections(Sections(a));
    CleanBodyKept(SummaryLabel, a.summary);
    CleanBodyKept(AnalysisLabel, a.analysis);
    LawsSectionRoundTrip(LawsLabel, a.relatedLaws);
    CasesSectionRoundTrip(CasesLabel, a.relatedCases);
  }
}

=== FILE: sequences.dfy ===
/** Order-preserving filtering of a list through a partial conversion. */
module Sequences {
  import opened Wrappers

  /**
   The values `f` yields on `xs`, in order, skipping the elements it rejects:
   the shape of a Python loop that appends only the items it can convert.
   */
  function FilterMap<A, B>(xs: seq<A>, f: A -> Option<B>): (r: seq<B>)
    ensures |r| <= |xs|
    decreases |xs|
  {
    if xs == [] then []
    else (match f(xs[0]) case Some(y) => [y] case None => []) + FilterMap(xs[1..], f)
  }

  /** Every value in the result is what `f` yields on some element. */
  lemma {:induction false} FilterMapSound<A, B>(xs: seq<A>, f: A -> Option<B>, k: nat)
    requires k < |FilterMap(xs, f)|
    ensures exists i :: 0 <= i < |xs| && f(xs[i]) == Some(FilterMap(xs, f)[k])
    decreases |xs|
  {
    var r := FilterMap(xs, f);
    if f(xs[0]).Some? && k == 0 {
      assert f(xs[0]) == Some(r[0]);
    } else {
      var k' := if f(xs[0]).Some? then k - 1 else k;
      assert r[k] == FilterMap(xs[1..], f)[k'];
      FilterMapSound(xs[1..], f, k');
      var i :| 0 <= i < |xs[1..]| && f(xs[1..][i]) == Some(FilterMap(xs[1..], f)[k']);
      assert xs[1..][i] == xs[i + 1];
    }
  }

  /** Filtering a concatenation concatenates the filtered parts: order of appearance is kept. */
  lemma {:induction false} FilterMapAppend<A, B>(a: seq<A>, b: seq<A>, f: A -> Option<B>)
    ensures FilterMap(a + b, f) == FilterMap(a, f) + FilterMap(b, f)
    decreases |a|
  {
    if a != [] {
      assert (a + b)[1..] == a[1..] + b;
      FilterMapAppend(a[1..], b, f);
    } else {
      assert a + b == b;
    }
  }

  /** Every accepted element contributes its value to the result. */
  lemma {:induction false} FilterMapComplete<A, B>(xs: seq<A>, f: A -> Option<B>, i: nat)
    requires i < |xs| && f(xs[i]).Some?
    ensures f(xs[i]).value in FilterMap(xs, f)
    decreases i
  {
    if i > 0 {
      FilterMapComplete(xs[1..], f, i - 1);
    }
  }

  /** When every element is accepted, nothing is dropped and positions line up. */
  lemma {:induction false} FilterMapAllAccepted<A, B>(xs: seq<A>, f: A -> Option<B>)
    requires forall i :: 0 <= i < |xs| ==> f(xs[i]).Some?
    ensures |FilterMap(xs, f)| == |xs|
    ensures forall i :: 0 <= i < |xs| ==> FilterMap(xs, f)[i] == f(xs[i]).value
    decreases |xs|
  {
    if xs != [] {
      FilterMapAllAccepted(xs[1..], f);
    }
  }

  /** When every element is rejected, the result is empty. */
  lemma {:induction false} FilterMapNoneAccepted<A, B>(xs: seq<A>, f: A -> Option<B>)
    requires forall i :: 0 <= i < |xs| ==> f(xs[i]).None?
    ensures FilterMap(xs, f) == []
    decreases |xs|
  {
    if xs != [] {
      FilterMapNoneAccepted(xs[1..], f);
    }
  }
}

=== FILE: strings.dfy ===
/**
 Python `str` operations used by the response parser, over `seq<char>`:
 substring search, `split`, `join`, `replace` and `strip`.
 */
module Strings {
  import opened Wrappers

  /** The line separator of `split("\n")`. */
  const LineBreak: char := '\n'

  /** Python's `text.split("\n")`: the lines of a block. */
  function Lines(text: string): seq<string> {
    SplitOn(text, [LineBreak])
  }

  /** Two line breaks in a row: the blank line of `split("\n\n")`. */
  const BlankLine: string := [LineBreak, LineBreak]

  /** How many times `c` occurs in `s`. */
  function Count(s: string, c: char): nat {
    multiset(s)[c]
  }

  /** `sep` occurs in `s` starting at index `i`. */
  predicate OccursAt(s: string, sep: string, i: int) {
    0 <= i && i + |sep| <= |s| && s[i..i + |sep|] == sep
  }

  /** Python's `sep in s`. */
  predicate Contains(s: string, sep: string) {
    exists i :: 0 <= i <= |s| && OccursAt(s, sep, i)
  }

  /** The leftmost occurrence of a non-empty `sep` in `s` (Python's `s.find(sep)`). */
  function IndexOf(s: string, sep: string): (r: Option<nat>)
    requires |sep| > 0
    ensures r.Some? ==> OccursAt(s, sep, r.value)
    ensures r.Some? ==> forall j :: 0 <= j < r.value ==> !OccursAt(s, sep, j)
    ensures r.None? <==> !Contains(s, sep)
    decreases |s|
  {
    if |s| < |sep| then
      None
    else if s[..|sep|] == sep then
      assert OccursAt(s, sep, 0);
      Some(0)
    else
      match IndexOf(s[1..], sep)
      case None =>
        assert !Contains(s, sep) by {
          forall j | 0 <= j <= |s|
            ensures !OccursAt(s, sep, j)
          {
            if j >= 1 {
              OccursAtShift(s, sep, j);
            }
          }
        }
        None
      case Some(i) =>
        assert OccursAt(s, sep, i + 1) && forall j :: 0 <= j < i + 1 ==> !OccursAt(s, sep, j) by {
          OccursAtShift(s, sep, i + 1);
          forall j | 1 <= j < i + 1
            ensures !OccursAt(s, sep, j)
          {
            OccursAtShift(s, sep, j);
          }
        }
        Some(i + 1)
  }

  /** Occurrences after the first character are the occurrences in the rest, one place earlier. */
  lemma OccursAtShift(s: string, sep: string, j: int)
    requires 1 <= j && |s| >= 1
    ensures OccursAt(s, sep, j) <==> OccursAt(s[1..], sep, j - 1)
  {
    if j + |sep| <= |s| {
      var a := s[j..j + |sep|];
      var b := s[1..][j - 1..j - 1 + |sep|];
      forall k | 0 <= k < |sep|
        ensures a[k] == b[k]
      {
        assert a[k] == s[j + k];
        assert b[k] == s[1..][j - 1 + k] == s[j + k];
      }
      assert a == b;
    }
  }

  /** An occurrence that has no earlier occurrence is the one `IndexOf` finds. */
  lemma IndexOfIs(s: string, sep: string, k: nat)
    requires |sep| > 0
    requires OccursAt(s, sep, k)
    requires forall j :: 0 <= j < k ==> !OccursAt(s, sep, j)
    ensures IndexOf(s, sep) == Some(k)
  {
    assert k <= |s| && OccursAt(s, sep, k);
  }

  /** An occurrence stays an occurrence when text is appended. */
  lemma OccursAtPrefix(x: string, y: string, sep: string, j: int)
    ensures OccursAt(x, sep, j) ==> OccursAt(x + y, sep, j)
  {
    if 0 <= j && j + |sep| <= |x| {
      assert (x + y)[j..j + |sep|] == x[j..j + |sep|];
    }
  }

  /** Python's `sep.join(pieces)`. */
  function Join(pieces: seq<string>, sep: string): string
    decreases |pieces|
  {
    if |pieces| == 0 then []
    else if |pieces| == 1 then pieces[0]
    else pieces[0] + sep + Join(pieces[1..], sep)
  }

  /** Joining two non-empty lists puts one separator between their joins. */
  lemma {:induction false} JoinAppend(a: seq<string>, b: seq<string>, sep: string)
    requires |a| > 0 && |b| > 0
    ensures Join(a + b, sep) == Join(a, sep) + sep + Join(b, sep)
    decreases |a|
  {
    if |a| == 1 {
      assert (a + b)[1..] == b;
    } else {
      assert (a + b)[1..] == a[1..] + b;
      JoinAppend(a[1..], b, sep);
    }
  }

  /**
   No occurrence of `sep` starts inside `p`, even one that would run into a
   separator written right after `p`.
   */
  predicate NoEarlySep(p: string, sep: string) {
    forall j :: 0 <= j < |p| ==> !OccursAt(p + sep, sep, j)
  }

  /**
   The shape of every result of `SplitOn`: at least one piece, no separator
   starts inside a piece that a separator follows, and the last piece holds
   no separator.
   */
  predicate Separable(pieces: seq<string>, sep: string) {
    && |pieces| >= 1
    && (forall k :: 0 <= k < |pieces| - 1 ==> NoEarlySep(pieces[k], sep))
    && !Contains(pieces[|pieces| - 1], sep)
  }

  /** Where the text starts with a cleanly ended piece and a separator, that separator is the first. */
  lemma IndexOfAfterPiece(p: string, sep: string, rest: string)
    requires |sep| > 0
    requires NoEarlySep(p, sep)
    ensures IndexOf(p + sep + rest, sep) == Some(|p|)
  {
    var s := p + sep + rest;
    assert s[|p|..|p| + |sep|] == sep;
    forall j | 0 <= j < |p|
      ensures !OccursAt(s, sep, j)
    {
      assert !OccursAt(p + sep, sep, j);
      assert (p + sep)[j..j + |sep|] == s[j..j + |sep|];
    }
    IndexOfIs(s, sep, |p|);
  }

  /**
   Python's `s.split(sep)` for a non-empty separator: cut at the leftmost
   occurrence, then continue after it; the result always has at least one piece.
   */
  function SplitOn(s: string, sep: string): (r: seq<string>)
    requires |sep| > 0
    ensures |r| >= 1
    ensures Join(r, sep) == s
    ensures Separable(r, sep)
    decreases |s|
  {
    match IndexOf(s, sep)
    case None => [s]
    case Some(i) =>
      var rest := SplitOn(s[i + |sep|..], sep);
      SplitStepJoin(s, sep, i, rest);
      SplitStepSeparable(s, sep, i, rest);
      [s[..i]] + rest
  }

  /** The text before a separator, put in front of pieces joining the rest, joins back to the text. */
  lemma SplitStepJoin(s: string, sep: string, i: nat, rest: seq<string>)
    requires OccursAt(s, sep, i)
    requires |rest| >= 1 && Join(rest, sep) == s[i + |sep|..]
    ensures Join([s[..i]] + rest, sep) == s
  {
    CutAt(s, i, |sep|);
    JoinCons(s[..i], rest, sep);
  }

  /** A text is its part before `i`, its `n` characters from `i`, and the rest. */
  lemma CutAt(s: string, i: nat, n: nat)
    requires i + n <= |s|
    ensures s == s[..i] + s[i..i + n] + s[i + n..]
  {
    assert s[..i] + s[i..i + n] == s[..i + n];
  }

  /** The text before the leftmost separator, put in front of separable pieces, keeps them separable. */
  lemma SplitStepSeparable(s: string, sep: string, i: nat, rest: seq<string>)
    requires OccursAt(s, sep, i)
    requires forall j :: 0 <= j < i ==> !OccursAt(s, sep, j)
    requires Separable(rest, sep)
    ensures Separable([s[..i]] + rest, sep)
  {
    LeftmostPieceClean(s, sep, i);
    SeparableCons(s[..i], rest, sep);
  }

  /** Joining a piece in front of a non-empty list puts one separator after it. */
  lemma JoinCons(p: string, rest: seq<string>, sep: string)
    requires |rest| >= 1
    ensures Join([p] + rest, sep) == p + sep + Join(rest, sep)
  {
    assert ([p] + rest)[1..] == rest;
  }

  /** A cleanly ending piece in front of a separable list keeps it separable. */
  lemma SeparableCons(p: string, rest: seq<string>, sep: string)
    requires NoEarlySep(p, sep) && Separable(rest, sep)
    ensures Separable([p] + rest, sep)
  {
    var r := [p] + rest;
    assert forall k :: 1 <= k < |r| ==> r[k] == rest[k - 1];
  }

  /** Where the leftmost separator sits at `i`, the split is the text before it and the split of the rest. */
  lemma SplitOnAt(s: string, sep: string, i: nat)
    requires |sep| > 0
    requires IndexOf(s, sep) == Some(i)
    ensures SplitOn(s, sep) == [s[..i]] + SplitOn(s[i + |sep|..], sep)
  {
  }

  /** The text before the leftmost separator ends cleanly. */
  lemma LeftmostPieceClean(s: string, sep: string, i: nat)
    requires OccursAt(s, sep, i)
    requires forall j :: 0 <= j < i ==> !OccursAt(s, sep, j)
    ensures NoEarlySep(s[..i], sep)
  {
    var p := s[..i] + sep;
    var t := s[i + |sep|..];
    assert s == p + t by {
      assert s[i..i + |sep|] == sep;
    }
    forall j | 0 <= j < i
      ensures !OccursAt(p, sep, j)
    {
      assert !OccursAt(s, sep, j);
      OccursAtPrefix(p, t, sep, j);
    }
  }

  /** `SplitOn` undoes `Join` on every separable list of pieces. */
  lemma {:induction false} SplitOfJoin(pieces: seq<string>, sep: string)
    requires |sep| > 0
    requires Separable(pieces, sep)
    ensures SplitOn(Join(pieces, sep), sep) == pieces
    decreases |pieces|
  {
    if |pieces| > 1 {
      var p := pieces[0];
      var rest := pieces[1..];
      assert Separable(rest, sep) by {
        assert forall k :: 0 <= k < |rest| - 1 ==> rest[k] == pieces[k + 1];
      }
      var s := Join(pieces, sep);
      assert s == p + sep + Join(rest, sep) by {
        assert pieces == [p] + rest;
        JoinCons(p, rest, sep);
      }
      IndexOfAfterPiece(p, sep, Join(rest, sep));
      SplitOnAt(s, sep, |p|);
      assert s[|p| + |sep|..] == Join(rest, sep);
      assert s[..|p|] == p;
      SplitOfJoin(rest, sep);
      assert pieces == [p] + rest;
    }
  }

  /** Dropping the tail of a separable list keeps it separable. */
  lemma SeparablePrefix(pieces: seq<string>, sep: string, n: nat)
    requires |sep| > 0
    requires Separable(pieces, sep)
    requires 1 <= n <= |pieces|
    ensures Separable(pieces[..n], sep)
  {
    if n < |pieces| {
      var p := pieces[n - 1];
      assert NoEarlySep(p, sep);
      forall j | 0 <= j <= |p|
        ensures !OccursAt(p, sep, j)
      {
        OccursAtPrefix(p, sep, sep, j);
      }
    }
  }

  /** A piece free of `c` ends cleanly and holds no `c`. */
  lemma CharFreePiece(p: string, c: char)
    requires c !in p
    ensures NoEarlySep(p, [c]) && !Contains(p, [c])
  {
    forall j | 0 <= j < |p|
      ensures !OccursAt(p, [c], j) && !OccursAt(p + [c], [c], j)
    {
      assert p[j..j + 1][0] == p[j];
      assert (p + [c])[j..j + 1][0] == p[j];
    }
  }

  /** Lines that do not contain `c` form a separable list for `c`. */
  lemma SeparableChar(pieces: seq<string>, c: char)
    requires |pieces| >= 1
    requires forall k :: 0 <= k < |pieces| ==> c !in pieces[k]
    ensures Separable(pieces, [c])
  {
    forall k | 0 <= k < |pieces|
      ensures NoEarlySep(pieces[k], [c]) && !Contains(pieces[k], [c])
    {
      CharFreePiece(pieces[k], c);
    }
  }

  /** A text has exactly as many single-character pieces as occurrences of the character plus one. */
  lemma {:induction false} SplitCharCount(s: string, c: char)
    ensures |SplitOn(s, [c])| == Count(s, c) + 1
    decreases |s|
  {
    match IndexOf(s, [c])
    case None =>
      assert c !in s by {
        forall j | 0 <= j < |s|
          ensures s[j] != c
        {
          CharOccurs(s, c, j);
        }
      }
    case Some(i) =>
      assert i < |s| && s[i] == c && c !in s[..i] by {
        CharOccurs(s, c, i);
        forall j | 0 <= j < i
          ensures s[..i][j] != c
        {
          CharOccurs(s, c, j);
        }
      }
      var t := s[i + 1..];
      assert s == s[..i] + [c] + t;
      assert multiset(s)[c] == multiset(t)[c] + 1 by {
        assert multiset(s) == multiset(s[..i]) + multiset{c} + multiset(t);
      }
      SplitOnAt(s, [c], i);
      SplitCharCount(t, c);
  }

  /** A one-character separator occurs exactly where that character is. */
  lemma CharOccurs(s: string, c: char, j: int)
    requires 0 <= j < |s|
    ensures OccursAt(s, [c], j) <==> s[j] == c
  {
    assert s[j..j + 1] == [s[j]];
  }

  /** A single-character separator never straddles pieces, so the pieces' pieces concatenate. */
  lemma SeparableAppendChar(a: seq<string>, b: seq<string>, c: char)
    requires Separable(a, [c]) && Separable(b, [c])
    ensures Separable(a + b, [c])
  {
    var ab := a + b;
    var last := a[|a| - 1];
    forall j | 0 <= j < |last|
      ensures !OccursAt(last + [c], [c], j)
    {
      assert (last + [c])[j..j + 1] == last[j..j + 1];
      assert !OccursAt(last, [c], j);
    }
    forall k | 0 <= k < |ab| - 1
      ensures NoEarlySep(ab[k], [c])
    {
      if k >= |a| {
        assert ab[k] == b[k - |a|];
      } else {
        assert ab[k] == a[k];
      }
    }
    assert ab[|ab| - 1] == b[|b| - 1];
  }

  /** Splitting on one character distributes over a join at that character. */
  lemma SplitCharAppend(x: string, y: string, c: char)
    ensures SplitOn(x + [c] + y, [c]) == SplitOn(x, [c]) + SplitOn(y, [c])
  {
    var a := SplitOn(x, [c]);
    var b := SplitOn(y, [c]);
    JoinAppend(a, b, [c]);
    SeparableAppendChar(a, b, c);
    SplitOfJoin(a + b, [c]);
  }

  /** No piece of a split on one character contains that character. */
  lemma SplitCharPiecesFree(s: string, c: char)
    ensures forall k :: 0 <= k < |SplitOn(s, [c])| ==> c !in SplitOn(s, [c])[k]
  {
    var p := SplitOn(s, [c]);
    forall k | 0 <= k < |p|
      ensures c !in p[k]
    {
      forall j | 0 <= j < |p[k]|
        ensures p[k][j] != c
      {
        if k < |p| - 1 {
          assert NoEarlySep(p[k], [c]);
          assert !OccursAt(p[k] + [c], [c], j);
          assert (p[k] + [c])[j..j + 1] == [p[k][j]];
        } else {
          assert !OccursAt(p[k], [c], j);
          assert p[k][j..j + 1] == [p[k][j]];
        }
      }
    }
  }

  /** A text with exactly one `c` splits on it into the parts before and after that `c`. */
  lemma SplitAtSoleChar(s: string, c: char)
    requires Count(s, c) == 1
    ensures IndexOf(s, [c]).Some?
    ensures IndexOf(s, [c]).value < |s| && s[IndexOf(s, [c]).value] == c
    ensures |SplitOn(s, [c])| == 2
    ensures SplitOn(s, [c])[0] == s[..IndexOf(s, [c]).value]
    ensures SplitOn(s, [c])[1] == s[IndexOf(s, [c]).value + 1..]
    ensures c !in SplitOn(s, [c])[0] && c !in SplitOn(s, [c])[1]
  {
    SplitCharCount(s, c);
    SplitCharPiecesFree(s, c);
    SoleCharFound(s, c);
    var i := IndexOf(s, [c]).value;
    var rest := SplitOn(s[i + 1..], [c]);
    assert SplitOn(s, [c]) == [s[..i]] + rest;
    assert |rest| == 1 && Join(rest, [c]) == rest[0];
  }

  lemma SoleCharFound(s: string, c: char)
    requires c in s
    ensures IndexOf(s, [c]).Some?
    ensures IndexOf(s, [c]).value < |s| && s[IndexOf(s, [c]).value] == c
  {
    var j :| 0 <= j < |s| && s[j] == c;
    CharOccurs(s, c, j);
    var i := IndexOf(s, [c]).value;
    CharOccurs(s, c, i);
  }

  /** Text with one `c` between two `c`-free parts splits into exactly those parts. */
  lemma SplitAroundChar(a: string, c: char, b: string)
    requires c !in a && c !in b
    ensures Count(a + [c] + b, c) == 1
    ensures SplitOn(a + [c] + b, [c]) == [a, b]
  {
    assert Count(a + [c] + b, c) == 1 by {
      assert multiset(a + [c] + b) == multiset(a) + multiset{c} + multiset(b);
    }
    SplitCharFree(a, c);
    SplitCharFree(b, c);
    SplitCharAppend(a, b, c);
  }

  /** A text without `c` is a single piece when split on `c`. */
  lemma SplitCharFree(a: string, c: char)
    requires c !in a
    ensures SplitOn(a, [c]) == [a]
  {
    var p := SplitOn(a, [c]);
    SplitCharCount(a, c);
    assert |p| == 1;
    assert Join(p, [c]) == p[0];
  }

  /**
   Python's `s.replace(pat, rep)` for a non-empty `pat`: every leftmost,
   non-overlapping occurrence of `pat` is replaced, not just a leading one.
   */
  function ReplaceAll(s: string, pat: string, rep: string): (r: string)
    requires |pat| > 0
    ensures !Contains(s, pat) ==> r == s
    decreases |s|
  {
    match IndexOf(s, pat)
    case None => s
    case Some(i) => s[..i] + rep + ReplaceAll(s[i + |pat|..], pat, rep)
  }

  /** `replace` agrees with Python's identity `s.replace(pat, rep) == rep.join(s.split(pat))`. */
  lemma {:induction false} ReplaceAllIsJoinOfSplit(s: string, pat: string, rep: string)
    requires |pat| > 0
    ensures ReplaceAll(s, pat, rep) == Join(SplitOn(s, pat), rep)
    decreases |s|
  {
    match IndexOf(s, pat)
    case None =>
    case Some(i) =>
      var tail := s[i + |pat|..];
      ReplaceAllIsJoinOfSplit(tail, pat, rep);
      SplitOnAt(s, pat, i);
      JoinCons(s[..i], SplitOn(tail, pat), rep);
  }

  /** Removing a label that heads the text, with no other occurrence, leaves exactly the rest. */
  lemma RemoveLeadingLabel(lbl: string, t: string)
    requires |lbl| > 0
    requires !Contains(t, lbl)
    ensures ReplaceAll(lbl + t, lbl, "") == t
  {
    assert OccursAt(lbl + t, lbl, 0);
    IndexOfIs(lbl + t, lbl, 0);
    assert (lbl + t)[|lbl|..] == t;
  }

  /**
   The characters Python's `str.isspace` accepts (and `str.strip()` removes):
   ASCII tab to carriage return, the information separators, space, NEL,
   no-break space, the Unicode space separators, line and paragraph separators
   and the ideographic space.
   */
  predicate IsWhitespace(c: char) {
    || ('\t' <= c <= '\r')
    || ('\U{1C}' <= c <= '\U{1F}')
    || c == ' '
    || c == '\U{85}'
    || c == '\U{A0}'
    || c == '\U{1680}'
    || ('\U{2000}' <= c <= '\U{200A}')
    || c == '\U{2028}'
    || c == '\U{2029}'
    || c == '\U{202F}'
    || c == '\U{205F}'
    || c == '\U{3000}'
  }

  predicate AllWhitespace(s: string) {
    forall k :: 0 <= k < |s| ==> IsWhitespace(s[k])
  }

  /** A character that is not whitespace does not occur in all-whitespace text. */
  lemma AllWhitespaceLacks(s: string, c: char)
    requires AllWhitespace(s) && !IsWhitespace(c)
    ensures c !in s
  {
  }

  /** `r` is the slice of `s` at offset `i`, with only whitespace on either side of it. */
  predicate TrimmedSlice(s: string, r: string, i: int) {
    0 <= i <= |s| - |r| && r == s[i..i + |r|] && AllWhitespace(s[..i]) && AllWhitespace(s[i + |r|..])
  }

  /** Python's `s.lstrip()`. */
  function StripLeft(s: string): (r: string)
    ensures |r| <= |s| && r == s[|s| - |r|..]
    ensures AllWhitespace(s[..|s| - |r|])
    ensures r != [] ==> !IsWhitespace(r[0])
    decreases |s|
  {
    if |s| > 0 && IsWhitespace(s[0]) then
      var r := StripLeft(s[1..]);
      StripLeftStep(s, r);
      r
    else
      assert s[..0] == [];
      s
  }

  /** Python's `s.rstrip()`. */
  function StripRight(s: string): (r: string)
    ensures |r| <= |s| && r == s[..|r|]
    ensures AllWhitespace(s[|r|..])
    ensures r != [] ==> !IsWhitespace(r[|r| - 1])
    decreases |s|
  {
    if |s| > 0 && IsWhitespace(s[|s| - 1]) then
      var r := StripRight(s[..|s| - 1]);
      StripRightStep(s, r);
      r
    else
      assert s[|s|..] == [];
      s
  }

  /** Skipping one leading whitespace character keeps the `lstrip` shape. */
  lemma StripLeftStep(s: string, r: string)
    requires |s| > 0 && IsWhitespace(s[0])
    requires |r| <= |s| - 1 && r == s[1..][|s| - 1 - |r|..]
    requires AllWhitespace(s[1..][..|s| - 1 - |r|])
    ensures r == s[|s| - |r|..]
    ensures AllWhitespace(s[..|s| - |r|])
  {
    assert s[1..][|s| - 1 - |r|..] == s[|s| - |r|..];
    assert s[..|s| - |r|] == [s[0]] + s[1..][..|s| - 1 - |r|];
    AllWhitespaceAppend([s[0]], s[1..][..|s| - 1 - |r|]);
  }

  /** Skipping one trailing whitespace character keeps the `rstrip` shape. */
  lemma StripRightStep(s: string, r: string)
    requires |s| > 0 && IsWhitespace(s[|s| - 1])
    requires |r| <= |s| - 1 && r == s[..|s| - 1][..|r|]
    requires AllWhitespace(s[..|s| - 1][|r|..])
    ensures r == s[..|r|]
    ensures AllWhitespace(s[|r|..])
  {
    assert s[..|s| - 1][..|r|] == s[..|r|];
    assert s[|r|..] == s[..|s| - 1][|r|..] + [s[|s| - 1]];
    AllWhitespaceAppend(s[..|s| - 1][|r|..], [s[|s| - 1]]);
  }

  /**
   Python's `s.strip()`: the longest middle slice of `s` whose first and last
   characters are not whitespace, with only whitespace cut off either side.
   */
  function Strip(s: string): (r: string)
    ensures Trimmed(r)
    ensures r == [] <==> AllWhitespace(s)
  {
    var l := StripLeft(s);
    var r := StripRight(l);
    StripBothSides(s, l, r);
    r
  }

  lemma StripBothSides(s: string, l: string, r: string)
    requires l == StripLeft(s) && r == StripRight(l)
    ensures exists i :: TrimmedSlice(s, r, i)
    ensures r == [] <==> AllWhitespace(s)
  {
    var i := |s| - |l|;
    StripSlices(s, l, r, i);
    assert TrimmedSlice(s, r, i);
    StripEmpty(s, l, r, i);
  }

  lemma StripEmpty(s: string, l: string, r: string, i: nat)
    requires TrimmedSlice(s, r, i) && s == s[..i] + l
    requires |r| <= |l| && r == l[..|r|] && AllWhitespace(l[|r|..])
    requires r != [] ==> !IsWhitespace(r[0])
    ensures r == [] <==> AllWhitespace(s)
  {
    if r == [] {
      assert l[|r|..] == l;
      AllWhitespaceAppend(s[..i], l);
    } else {
      assert r[0] == s[i];
    }
  }

  lemma StripSlices(s: string, l: string, r: string, i: nat)
    requires i <= |s| && l == s[i..] && AllWhitespace(s[..i])
    requires |r| <= |l| && r == l[..|r|] && AllWhitespace(l[|r|..])
    ensures s == s[..i] + l
    ensures r == s[i..i + |r|]
    ensures AllWhitespace(s[i + |r|..])
  {
    assert s[i + |r|..] == l[|r|..];
  }

  lemma AllWhitespaceAppend(a: string, b: string)
    requires AllWhitespace(a) && AllWhitespace(b)
    ensures AllWhitespace(a + b)
  {
  }

  /** Text with no whitespace at either end. */
  predicate Trimmed(s: string) {
    s == [] || (!IsWhitespace(s[0]) && !IsWhitespace(s[|s| - 1]))
  }

  /** Text that already has no surrounding whitespace is left as it is by `strip`. */
  lemma StripKeeps(s: string)
    requires Trimmed(s)
    ensures Strip(s) == s
  {
  }

  /** `strip` keeps a middle slice of its input and cuts only whitespace off either side. */
  lemma StripIsSlice(s: string)
    ensures exists i :: TrimmedSlice(s, Strip(s), i)
  {
    StripBothSides(s, StripLeft(s), StripRight(StripLeft(s)));
    assert Strip(s) == StripRight(StripLeft(s));
  }

  /** `strip` never introduces a character. */
  lemma StripKeepsOut(s: string, c: char)
    requires c !in s
    ensures c !in Strip(s)
  {
    var r := Strip(s);
    StripIsSlice(s);
    var i :| TrimmedSlice(s, r, i);
    SliceKeepsOut(s, i, i + |r|, c);
  }

  /** A slice holds no character its text does not hold. */
  lemma SliceKeepsOut(s: string, i: int, j: int, c: char)
    requires 0 <= i <= j <= |s| && c !in s
    ensures c !in s[i..j]
  {
    forall k | 0 <= k < j - i ensures s[i..j][k] != c {
      assert s[i..j][k] == s[i + k];
    }
  }

  /** `strip` is idempotent. */
  lemma StripIdempotent(s: string)
    ensures Strip(Strip(s)) == Strip(s)
  {
    StripKeeps(Strip(s));
  }

  lemma {:induction false} StripLeftPadded(w: string, u: string)
    requires AllWhitespace(w)
    requires u == [] || !IsWhitespace(u[0])
    ensures StripLeft(w + u) == u
    decreases |w|
  {
    if |w| > 0 {
      assert (w + u)[1..] == w[1..] + u;
      StripLeftPadded(w[1..], u);
    }
  }

  lemma {:induction false} StripRightPadded(u: string, w: string)
    requires AllWhitespace(w)
    requires u == [] || !IsWhitespace(u[|u| - 1])
    ensures StripRight(u + w) == u
    decreases |w|
  {
    if |w| > 0 {
      assert (u + w)[..|u + w| - 1] == u + w[..|w| - 1];
      StripRightPadded(u, w[..|w| - 1]);
    }
  }

  /** `strip` removes exactly the whitespace padding around a trimmed text. */
  lemma StripPadded(w1: string, t: string, w2: string)
    requires AllWhitespace(w1) && AllWhitespace(w2)
    requires Trimmed(t)
    ensures Strip(w1 + t + w2) == t
  {
    if t == [] {
      assert AllWhitespace(w1 + t + w2);
    } else {
      assert w1 + t + w2 == w1 + (t + w2);
      StripLeftPadded(w1, t + w2);
      StripRightPadded(t, w2);
    }
  }

  /** No two consecutive newlines, i.e. no blank-line separator. */
  predicate NoBlankLine(s: string) {
    forall k :: 0 <= k < |s| - 1 ==> !(s[k] == LineBreak && s[k + 1] == LineBreak)
  }

  lemma NoBlankLineContains(s: string)
    ensures NoBlankLine(s) <==> !Contains(s, BlankLine)
  {
    if !NoBlankLine(s) {
      var k :| 0 <= k < |s| - 1 && s[k] == LineBreak && s[k + 1] == LineBreak;
      assert OccursAt(s, BlankLine, k);
    }
    if Contains(s, BlankLine) {
      var k :| 0 <= k <= |s| && OccursAt(s, BlankLine, k);
      assert |BlankLine| == 2;
      assert s[k] == s[k..k + 2][0];
      assert s[k + 1] == s[k..k + 2][1];
    }
  }

  /** A non-empty single line with no whitespace at either end. */
  predicate TrimmedLine(l: string) {
    l != [] && LineBreak !in l && Trimmed(l)
  }

  /** Trimmed lines joined by newlines form a trimmed text with no blank line in it. */
  lemma {:induction false} JoinTrimmedLines(lines: seq<string>)
    requires |lines| >= 1
    requires forall k :: 0 <= k < |lines| ==> TrimmedLine(lines[k])
    ensures var t := Join(lines, [LineBreak]);
            t != [] && Trimmed(t) && NoBlankLine(t)
    decreases |lines|
  {
    var t := Join(lines, [LineBreak]);
    if |lines| > 1 {
      var l := lines[0];
      var u := Join(lines[1..], [LineBreak]);
      JoinTrimmedLines(lines[1..]);
      assert t == l + [LineBreak] + u;
      forall k | 0 <= k < |t| - 1
        ensures !(t[k] == LineBreak && t[k + 1] == LineBreak)
      {
        if k < |l| {
          assert t[k] == l[k];
        } else if k == |l| {
          assert t[k + 1] == u[0];
        } else {
          assert t[k] == u[k - |l| - 1] && t[k + 1] == u[k - |l|];
        }
      }
    }
  }
}

=== FILE: wrappers.dfy ===
/** The optional-value datatype used for results that may be absent. */
module Wrappers {

  /** `None` marks a missing value or a failed parse; `Some` carries the value. */
  datatype Option<+T> = None | Some(value: T)
}
